=== FILE: README.md ===
# CronBoss, modelled in Dafny

CronBoss is a single PHP class that reads a Unix crontab with
`/usr/bin/crontab -l [-u account]`, holds it as an array of lines, lets the
caller replace that array, and installs it again by writing the lines to a
temporary file and running `/usr/bin/crontab [-u account] <file>`.

This project models that class in two modules:

- `php.dfy` (module `Php`): the PHP built-ins the class relies on — `null`
  (`Nullable`), returning versus throwing (`Completion`), the truthiness
  of an optional string (`null`, `""` and `"0"` are false), `rtrim` with
  its default character list `" \t\n\r\0\x0B"`, `implode` on the line
  terminator, `explode` on the same terminator as its inverse, and
  `sprintf` with one argument.
- `cronboss.dfy` (module `CronBossClass`): the two command lines the class
  builds, `load`, the text `save` writes, and the class `CronBoss` itself
  with its fields `userAccount`, `cronEntries`, `cronOutput` and `output`
  and the operations `__construct`, `crontab`, `response` and `save`.

The shell and the file system are parameters. `exec` is a function from a
command line to the lines it printed and its exit status.
`escapeShellArg` stands for PHP's `escapeshellarg` and is left
uninterpreted. A `TempFile` record gives the path `tempnam` returned (the
empty path standing for its `false`, which is what `fopen` then receives)
and whether `fopen`, `fwrite` and `fclose` succeeded. `save` returns a
`SaveTrace` that records what it did: the text handed to `fwrite`, whether
`fclose` was reached, the command handed to `exec`, and whether the
temporary file was unlinked.

Behaviour of the code worth knowing, all of it modelled:

- Both command lines are built by interpolating the `-u` flag (and, for
  the install command, the temporary file's path) into the FORMAT string of
  `sprintf` (CronBoss.class.php:101, 181). A `%` in the account is read as
  a directive: `%1$s` becomes the crontab path, and a directive that needs
  a second argument makes `sprintf` throw (PHP 8's `ArgumentCountError`).
  Then `load`, and with it `new CronBoss(...)`, or `save` throws. See
  "## Findings".
- The temporary file is unlinked only on the path where the install
  command ran (CronBoss.class.php:185). When `fopen`, `fwrite` or `fclose`
  fails, the file that `tempnam` created is left behind. When `fwrite`
  fails, `fclose` is skipped by `&&`.
- `load` puts the account into the list command without escaping it
  (CronBoss.class.php:98). Only `save` escapes it. A NUL byte in the
  account therefore reaches `exec`, which PHP 8 refuses with a
  `ValueError`, and `load`, and with it `new CronBoss(...)`, throws. The
  exception is a NUL byte that `sprintf` consumes as the padding character
  of a `'` flag: the account "%1$'\0s" lists the crontab of
  "/usr/bin/crontab", and `load` returns.
- When `tempnam` fails (CronBoss.class.php:165), PHP 8's `fopen` is handed
  an empty path and throws a `ValueError` instead of returning false, so
  `save` throws before writing anything.
- `response()` reads `$this->output`, which only `save` writes. The
  declared field `$cronOutput` is set to null by the constructor and never
  read. Both are fields of the model; `output` is `Null` until an install
  command has run, and the class invariant `Valid()` says so.
- `PHP_EOL` is `"\n"`, as on every system that has crontab(1). So the
  `implode("\n", $output)` at CronBoss.class.php:187 is the same `Implode`.

## Model

| member | source | states |
|---|---|---|
| Php.Truthy | CronBoss.class.php:98 | a truthy account is a non-null string other than "0"; every string of two or more characters (such as "00") is truthy |
| Php.RTrim | CronBoss.class.php:172 | the result is a prefix of the input, every dropped character is rtrim whitespace, and the result is empty or ends in a non-whitespace character |
| Php.RTrimUnique | CronBoss.class.php:172 | those three properties determine `rtrim`'s result uniquely |
| Php.RTrimIgnoresSpaceSuffix | CronBoss.class.php:172 | appending only whitespace does not change what `rtrim` keeps |
| Php.RTrimKeeps | CronBoss.class.php:172 | a text already ending in a visible character is returned unchanged |
| Php.RTrimEmptyIff | CronBoss.class.php:172 | `rtrim` gives the empty string exactly when the input is all whitespace |
| Php.Implode | CronBoss.class.php:169 | joining no lines gives ""; the joined text starts with the first line, followed by a terminator when there is a second |
| Php.Explode | CronBoss.class.php:169 | reference inverse of the `implode` at this line (the source never calls `explode`), used to state the round trip: at least one piece, and no piece holds a terminator |
| Php.ImplodeSnoc | CronBoss.class.php:169 | joining one more line adds one terminator and that line at the end |
| Php.ExplodePrefix | CronBoss.class.php:169 | a terminator-free prefix is glued onto the first piece when splitting |
| Php.ExplodeImplode | CronBoss.class.php:169 | splitting the joined lines gives them back when none holds a terminator |
| Php.ImplodeExplode | CronBoss.class.php:169 | joining the pieces of any text gives the text back |
| Php.ImplodeAllSpace | CronBoss.class.php:169 | the joined text is all whitespace exactly when every line is |
| Php.Format | CronBoss.class.php:101 | one-argument PHP 8 formatting: `%%` gives `%`; an `s` directive with argument number 1, or the first one without an argument number, gives the argument whatever its flags; any other directive throws; format text without `%` is copied unchanged; further stated by FormatLeadingArg, FormatSplit, FormatPositionalOne, FormatPaddedPositionalOne, FormatSecondArgThrows and FormatKeepsChar |
| Php.SkipFlags | CronBoss.class.php:101 | the flags ` `, `0`, `-`, `+` and `'` with any padding character are skipped, and a `'` at the end throws; in a format without `'` everything skipped is one of the other four flags |
| Php.ParseDirective | CronBoss.class.php:101 | a directive that parses ends in `s` inside the format; in a format without `'` it consists only of `%`, `$`, digits, flags, `l` and `s` |
| Php.ParsePlain | CronBoss.class.php:101 | `%s` parses as a sequential directive of two characters |
| Php.ParsePositionalOne | CronBoss.class.php:101 | `%1$s` parses as a directive for argument 1 of four characters |
| Php.ParsePaddedPositionalOne | CronBoss.class.php:101 | `%1$'` with any padding character and `s` parses as a directive for argument 1 of six characters |
| Php.Sprintf | CronBoss.class.php:181 | `sprintf(format, arg)` starts formatting with the argument unused; a format without `%` comes back unchanged |
| Php.FormatKeepsChar | CronBoss.class.php:101 | in a format without `'`, a character that cannot belong to a directive (not `%`, `$`, `l`, `s`, a digit or a flag) is in the result whenever formatting succeeds |
| Php.FormatLeadingArg | CronBoss.class.php:101 | a leading `%s` in the format is replaced by the one argument |
| Php.SprintfLeadingArg | CronBoss.class.php:101 | a leading `%s` followed by `%`-free text gives the argument followed by that text |
| Php.FormatSplit | CronBoss.class.php:101 | `%`-free format text is copied and the rest of the format is formatted after it |
| Php.FormatPositionalOne | CronBoss.class.php:101 | `%1$s` in the format is replaced by the first argument even after `%s` took it |
| Php.FormatPaddedPositionalOne | CronBoss.class.php:101 | `%1$'`, any padding character and `s` are replaced by the first argument, and the padding character disappears |
| Php.SprintfArgTwice | CronBoss.class.php:101 | a leading `%s`, `%`-free text, `%1$s` and `%`-free text give the argument in both places, with the text between |
| Php.SprintfPaddedArgTwice | CronBoss.class.php:101 | the same with `%1$'`, a padding character and `s` in place of `%1$s`: the padding character appears nowhere |
| Php.FormatSecondArgThrows | CronBoss.class.php:101 | a second `%s` with only one argument makes `sprintf` throw |
| CronBossClass.ListCommand | CronBoss.class.php:98-101 | the command `sprintf` builds with the `-u` flag in its format; for an account without `%` it is the intended command |
| CronBossClass.IntendedListCommand | CronBoss.class.php:98-101 | a falsy account (null, "" or "0") gives `crontab -l` with no `-u`; a truthy one gives `-u` followed by the account unescaped |
| CronBossClass.IntendedListCommandInjective | CronBoss.class.php:98-101 | two accounts give the same intended list command exactly when both are falsy or both are the same truthy string |
| CronBossClass.ListCommandInjective | CronBoss.class.php:98-101 | for accounts without `%`, two accounts give the same list command exactly when both are falsy or both are the same truthy string |
| CronBossClass.ListCommandFormatCollision | CronBoss.class.php:98-101 | for `%`-free x and y, the account x + "%1$s" + y gives the same list command as x + "/usr/bin/crontab" + y (so "%1$s" that of "/usr/bin/crontab"), which is not its intended command; x + "%s" + y (e.g. "bob%s") makes it throw |
| CronBossClass.ListCommandWithPath | CronBoss.class.php:98-101 | the list command of a `%`-free account holding the crontab path is the path, ` -l -u `, and the account |
| CronBossClass.ListCommandPadded | CronBoss.class.php:98-101 | the list command of an account with `%1$'`, a padding character and `s` in it is that of the account with the crontab path in their place |
| CronBossClass.ListCommandPaddingDropsChar | CronBoss.class.php:98-106 | for `%`-free x and y, x + "%1$'" + pad + "s" + y gives the same list command as x + "/usr/bin/crontab" + y for every padding character, a NUL byte included; `load` then returns when x and y hold no NUL byte |
| CronBossClass.InstallCommand | CronBoss.class.php:178-181 | the command `sprintf` builds with the escaped account and the file in its format; when neither holds `%` it is the intended command |
| CronBossClass.IntendedInstallCommand | CronBoss.class.php:178-181 | a falsy account gives `crontab  <file>` with no `-u`; a truthy one gives `-u` followed by the escaped account, then the file |
| CronBossClass.IntendedInstallCommandInjective | CronBoss.class.php:178-181 | two accounts give the same intended install command exactly when both are falsy or both are truthy with the same escaped form |
| CronBossClass.InstallCommandInjective | CronBoss.class.php:178-181 | when the path and the escaped accounts hold no `%`, two accounts give the same install command exactly when both are falsy or both are truthy with the same escaped form |
| CronBossClass.InstallCommandFormatCollision | CronBoss.class.php:178-181 | with quote-wrapping escaping and a `%`-free path, the account x + "%1$s" + y (x, y `%`-free) gives the same install command as x + "/usr/bin/crontab" + y (so "%1$s" as "/usr/bin/crontab"), which is not its intended command |
| CronBossClass.Load | CronBoss.class.php:96-107 | throws exactly when building the list command throws or the command holds a NUL byte (refused by `exec`); otherwise non-null exactly when that command exits 0, and then exactly its output lines |
| CronBossClass.LoadRejectsNul | CronBoss.class.php:96-107 | every account holding a NUL byte and no `'` makes `load` throw |
| CronBossClass.FopenThrows | CronBoss.class.php:165-167 | PHP 8's `fopen` throws for the empty path (what a failed `tempnam` hands it) or a path holding a NUL byte |
| CronBossClass.Runnable | CronBoss.class.php:100-101 | `exec` runs a command exactly when `sprintf` built it without throwing and it holds no NUL byte; otherwise PHP 8 throws |
| CronBossClass.Serialise | CronBoss.class.php:169-172 | the text ends in exactly one terminator preceded by no whitespace, its body is a prefix of the joined lines, and everything dropped is whitespace |
| CronBossClass.SerialiseKeepsText | CronBoss.class.php:169-172 | when the joined lines end in a visible character, the text is them plus one terminator |
| CronBossClass.SerialiseRoundTrip | CronBoss.class.php:169-172 | non-empty lines without embedded terminators, the last ending in a visible character, are recovered by dropping the final terminator and splitting |
| CronBossClass.SerialiseDropsTrailingBlank | CronBoss.class.php:169-172 | a trailing whitespace-only line does not change the text written |
| CronBossClass.SerialiseBlankIff | CronBoss.class.php:169-172 | the text is a lone terminator exactly when every line is whitespace only (in particular for no lines) |
| CronBossClass.CronBoss.constructor | CronBoss.class.php:71-76 | when loading returns: stores the account, sets `cronOutput` and `output` to null, and sets `cronEntries` to what `Load` returned |
| CronBossClass.CronBoss.Create | CronBoss.class.php:71-76 | `new CronBoss($account)` throws exactly when `Load` throws; otherwise it yields a fresh object in the constructor's state |
| CronBossClass.CronBoss.Crontab | CronBoss.class.php:123-132 | an array replaces the lines and returns the object; null returns the current lines unchanged; anything else changes nothing and returns the object |
| CronBossClass.CronBoss.Response | CronBoss.class.php:137 | returns the `output` field, which is null until some `save` has run the install command |
| CronBossClass.CronBoss.Save | CronBoss.class.php:161-192 | throws, having done nothing, when `fopen` is handed an empty path (a failed `tempnam`) or one with a NUL byte; writes `Serialise` of the lines when the file opened; reaches `fclose` only after a successful write; when open, write and close succeed, builds the install command from its own argument (never `userAccount`) and throws if that throws or the command holds a NUL byte; otherwise runs it, and on exactly that path unlinks the file and sets `output` to the joined command output; returns true exactly when that command exits 0; never changes `cronEntries` or `userAccount` |
| CronBossClass.DocExample | CronBoss.class.php:17-30 | the class's usage example writes the loaded lines (none if the load failed) plus `#my new entry`, serialised; it throws exactly when `fopen` throws or, after a successful close, the install command cannot be built or holds a NUL byte, and otherwise succeeds exactly when open, write and close succeed and the install command exits 0 |
| CronBossClass.ReadAfterWrite | CronBoss.class.php:123-132 | storing lines with `crontab($jobs)` and reading with `crontab()` gives back exactly those lines, on every object that construction yields |

## Findings

| source | as written | input that shows it | evidently intended | confidence | as-written member | corrected member |
|---|---|---|---|---|---|---|
| CronBoss.class.php:98-101 | the `-u` flag with the raw account is interpolated into the format string of `sprintf` | account "%1$s" lists the crontab of account "/usr/bin/crontab"; account "bob%s" makes `sprintf` throw | the account is plain text in the command, so distinct truthy accounts give distinct commands | not executed; high | CronBossClass.ListCommandFormatCollision | CronBossClass.IntendedListCommandInjective |
| CronBoss.class.php:178-181 | the escaped account and the temporary path are interpolated into the format string of `sprintf` | account "%1$s", escaped to "'%1$s'", installs the crontab as if for account "/usr/bin/crontab" | the escaped account is plain text in the command, so accounts with distinct escaped forms give distinct commands | not executed; high | CronBossClass.InstallCommandFormatCollision | CronBossClass.IntendedInstallCommandInjective |

`Load`, construction and `Save` use the commands as written (`ListCommand`,
`InstallCommand`), which agree with the intended ones for every account
and path without `%`.

## Left out

- The real `exec`, `tempnam`, `sys_get_temp_dir`, `fopen`, `fwrite`, `fclose` and `unlink`: process and file-system I/O, replaced by the `exec` parameter, the `TempFile` record and the `SaveTrace` result.
- How `exec` splits and trims the command's standard output into lines, and what `escapeshellarg` produces: PHP library behaviour, kept as uninterpreted function parameters. PHP 8's `escapeshellarg` itself throws for an argument holding a NUL byte; the model captures that throw only when the escaped text keeps the byte, which `exec` then refuses.
- `exec` is one deterministic function per call site: the model does not capture a crontab that changes between two runs of the same command.
- `fwrite`'s return value is modelled only by its truthiness (`writeOk`); a zero-byte write counts as failure, as PHP's `&&` treats it.
- Php.Format: a directive with a width, a precision or a conversion other than `s` throws in the model, whereas PHP formats the crontab path under it (`%1$d` gives `0`, `%1$20s` pads it); so does a first sequential directive other than `%s`, which never arises in CronBoss's two formats, whose first directive is always `%s`.
- Php.Format: `sprintf` follows PHP 8, which throws on a missing argument, an argument number of 0 or a `%` at the end; PHP 7 instead warns and returns false, after which `exec` receives an empty command. That PHP 7 path is not modelled.
- CronBossClass.CronBoss.Save: requires `cronEntries` to be non-null when the file opened, because `implode` on a null `cronEntries` after a failed load warns or throws depending on the PHP version; when `fopen` fails, `save` returns false without reaching `implode`, and that case is modelled.
- CronBossClass.LoadRejectsNul: holds only for accounts without `'`, because a `'` flag in a directive makes `sprintf` consume the next character, a NUL byte included, as padding: the account "%1$'\0s" lists the crontab of "/usr/bin/crontab" and `load` returns (`ListCommandPaddingDropsChar`).
- Php.FormatKeepsChar: holds only for formats without `'`, for the same reason: the character after a `'` flag is padding, which the directives modelled here never insert.
- CronBossClass.CronBoss.constructor: requires that loading returns; the case where it throws, leaving no object, is `Create`.
- The PHP notices the class raises are not modelled: `response()` before any `save` reads the undeclared property `output` (null with an "Undefined property" warning), and `save` creates that property dynamically, which PHP 8.2 deprecates.
- Accounts and `crontab()` arguments of other PHP types (integers, objects): accounts are `null` or strings, and every non-null non-array argument of `crontab()` is one `OtherArg` case.
- Arrays passed to `crontab()` are sequences of strings; PHP arrays with keys or non-string elements are not modelled.
- Schedule-syntax validation and the planned add/remove/find and marked-section features listed in the class comment: they are not implemented in the source.
- Permissions, safe mode and concurrent editors of the same crontab: environment and concurrency concerns with no logic in the code.

=== FILE: cronboss.dfy ===
/**
 * The CronBoss class: it reads a user's crontab through `crontab -l`, holds
 * it as a sequence of lines, lets the caller replace it, and installs it
 * again by writing a temporary file and running `crontab <file>`.
 *
 * Every call into the operating system is a parameter: `exec` maps a
 * command line to the lines it printed and its exit status,
 * `escapeShellArg` stands for PHP's `escapeshellarg`, and a `TempFile`
 * record gives the path `tempnam` returned and says whether `fopen`,
 * `fwrite` and `fclose` succeeded.
 */
module CronBossClass {
  import opened Php

  /** The crontab executable (CronBoss::CRONTAB). */
  const CrontabPath: string := "/usr/bin/crontab"

  /** The crontab path holds neither a format directive nor a NUL byte. */
  lemma CrontabPathPlain()
    ensures '%' !in CrontabPath && '\0' !in CrontabPath
  {
  }

  /** The optional account whose crontab is read or written. */
  type Account = Nullable<string>

  /** What PHP's `exec` hands back: the output lines and the exit status. */
  datatype ExecResult = ExecResult(lines: seq<string>, status: int)

  /** The shell, as seen by the class: a command line in, an ExecResult out. */
  type Exec = string -> ExecResult

  /**
   * The outcome of the file calls made by `save`, in the order it makes
   * them. A `tempnam` that fails returns false, which `fopen` receives as
   * the empty path, so `path == ""` stands for that failure.
   */
  datatype TempFile = TempFile(path: string, openOk: bool, writeOk: bool, closeOk: bool)

  /**
   * PHP 8's `fopen` throws a ValueError, rather than returning false, for
   * an empty path or one holding a NUL byte.
   */
  predicate FopenThrows(path: string) {
    path == "" || '\0' in path
  }

  /**
   * Whether `exec` runs a command: it was built without `sprintf`
   * throwing, and holds no NUL byte (PHP 8's `exec` throws a ValueError
   * for one).
   */
  predicate Runnable(command: Completion<string>) {
    command.Returns? && '\0' !in command.value
  }

  /** The external effects one `save` call performed. */
  datatype SaveTrace = SaveTrace(
    written: Nullable<string>,         // the text handed to fwrite, if the file opened
    closeCalled: bool,                 // whether fclose was reached
    installCommand: Nullable<string>,  // the command handed to exec, if any
    unlinked: bool)                    // whether the temporary file was removed

  /** The argument of `crontab()`: PHP `null`, an array of lines, or any other value. */
  datatype CrontabArg = NullArg | ArrayArg(jobs: seq<string>) | OtherArg

  /** What `crontab()` returns: the object itself, or the current lines (possibly null). */
  datatype CrontabReturn = Self | Entries(entries: Nullable<seq<string>>)

  /**
   * The list command that `load` hands to `exec`. The `-u` flag is put into
   * the FORMAT of `sprintf("%s -l {$user}", CRONTAB)`, so a `%` in the
   * account is read as a directive. Without one, the command is the
   * intended one, with the account unescaped at its end.
   */
  function ListCommand(account: Account): (cmd: Completion<string>)
    ensures (account.Value? ==> '%' !in account.value) ==> cmd == Returns(IntendedListCommand(account))
  {
    var user := if Truthy(account) then "-u " + account.value else "";
    var tail := " -l " + user;
    SprintfLeadingArg(tail, CrontabPath);
    assert (account.Value? ==> '%' !in account.value) ==> '%' !in user;
    assert CrontabPath + tail == IntendedListCommand(account);
    Sprintf("%s" + tail, CrontabPath)
  }

  /**
   * The install command that `save` hands to `exec`, built by
   * `sprintf("%s {$user} {$tmpFile}", CRONTAB)`: the escaped account and
   * the temporary file's path are part of the format. Without a `%` in
   * either, the command is the intended one.
   */
  function InstallCommand(account: Account, tmpFile: string, escapeShellArg: string -> string): (cmd: Completion<string>)
    ensures '%' !in tmpFile && (Truthy(account) ==> '%' !in escapeShellArg(account.value)) ==>
              cmd == Returns(IntendedInstallCommand(account, tmpFile, escapeShellArg))
  {
    var user := if Truthy(account) then "-u " + escapeShellArg(account.value) else "";
    var tail := " " + user + " " + tmpFile;
    SprintfLeadingArg(tail, CrontabPath);
    assert (Truthy(account) ==> '%' !in escapeShellArg(account.value)) ==> '%' !in user;
    assert CrontabPath + tail == IntendedInstallCommand(account, tmpFile, escapeShellArg);
    Sprintf("%s" + tail, CrontabPath)
  }

  /**
   * The list command as the class means it: `crontab -l`, then, for a
   * truthy account, `-u` and the account exactly as given.
   */
  function IntendedListCommand(account: Account): (cmd: string)
    ensures !Truthy(account) ==> cmd == CrontabPath + " -l "
    ensures Truthy(account) ==> cmd == CrontabPath + " -l -u " + account.value
  {
    CrontabPath + " -l " + (if Truthy(account) then "-u " + account.value else "")
  }

  /**
   * The install command as the class means it: `crontab`, then, for a
   * truthy account, `-u` and the escaped account, then the file.
   */
  function IntendedInstallCommand(account: Account, tmpFile: string, escapeShellArg: string -> string): (cmd: string)
    ensures !Truthy(account) ==> cmd == CrontabPath + "  " + tmpFile
    ensures Truthy(account) ==> cmd == CrontabPath + " -u " + escapeShellArg(account.value) + " " + tmpFile
  {
    CrontabPath + " " + (if Truthy(account) then "-u " + escapeShellArg(account.value) else "") + " " + tmpFile
  }

  /** Two accounts give the same intended list command exactly when they select the same `-u` argument. */
  lemma IntendedListCommandInjective(a: Account, b: Account)
    ensures IntendedListCommand(a) == IntendedListCommand(b) <==>
              (Truthy(a) <==> Truthy(b)) && (Truthy(a) ==> a.value == b.value)
  {
    var ca, cb := IntendedListCommand(a), IntendedListCommand(b);
    var n := |CrontabPath| + 7;
    if ca == cb && Truthy(a) && Truthy(b) {
      assert a.value == ca[n..] && b.value == cb[n..];
    } else if Truthy(a) && !Truthy(b) {
      assert |ca| > |cb|;
    } else if !Truthy(a) && Truthy(b) {
      assert |ca| < |cb|;
    }
  }

  /**
   * Two accounts give the same intended install command exactly when they
   * agree on truthiness and, when truthy, on their escaped form.
   */
  lemma IntendedInstallCommandInjective(a: Account, b: Account, tmpFile: string, escapeShellArg: string -> string)
    ensures IntendedInstallCommand(a, tmpFile, escapeShellArg) == IntendedInstallCommand(b, tmpFile, escapeShellArg) <==>
              (Truthy(a) <==> Truthy(b)) &&
              (Truthy(a) ==> escapeShellArg(a.value) == escapeShellArg(b.value))
  {
    var ca, cb := IntendedInstallCommand(a, tmpFile, escapeShellArg), IntendedInstallCommand(b, tmpFile, escapeShellArg);
    var n := |CrontabPath| + 4;
    if ca == cb && Truthy(a) && Truthy(b) {
      var ea, eb := escapeShellArg(a.value), escapeShellArg(b.value);
      assert |ea| == |eb|;
      assert ea == ca[n..n + |ea|] && eb == cb[n..n + |eb|];
    } else if Truthy(a) && !Truthy(b) {
      assert ca[|CrontabPath| + 1] == '-' && cb[|CrontabPath| + 1] == ' ';
    } else if !Truthy(a) && Truthy(b) {
      assert ca[|CrontabPath| + 1] == ' ' && cb[|CrontabPath| + 1] == '-';
    }
  }

  /** For accounts without `%`, two accounts give the same list command exactly when they select the same `-u` argument. */
  lemma ListCommandInjective(a: Account, b: Account)
    requires a.Value? ==> '%' !in a.value
    requires b.Value? ==> '%' !in b.value
    ensures ListCommand(a) == ListCommand(b) <==>
              (Truthy(a) <==> Truthy(b)) && (Truthy(a) ==> a.value == b.value)
  {
    IntendedListCommandInjective(a, b);
  }

  /**
   * For a path and escaped accounts without `%`, two accounts give the same
   * install command exactly when they agree on truthiness and, when truthy,
   * on their escaped form.
   */
  lemma InstallCommandInjective(a: Account, b: Account, tmpFile: string, escapeShellArg: string -> string)
    requires '%' !in tmpFile
    requires Truthy(a) ==> '%' !in escapeShellArg(a.value)
    requires Truthy(b) ==> '%' !in escapeShellArg(b.value)
    ensures InstallCommand(a, tmpFile, escapeShellArg) == InstallCommand(b, tmpFile, escapeShellArg) <==>
              (Truthy(a) <==> Truthy(b)) &&
              (Truthy(a) ==> escapeShellArg(a.value) == escapeShellArg(b.value))
  {
    IntendedInstallCommandInjective(a, b, tmpFile, escapeShellArg);
  }

  /**
   * An account holding `%1$s` lists the crontab of the account with the
   * crontab path in its place, e.g. "%1$s" that of "/usr/bin/crontab":
   * `sprintf` replaces the positional directive by its first argument.
   * An account holding `%s`, e.g. "bob%s", makes `sprintf` ask for a
   * second argument and throw.
   */
  lemma ListCommandFormatCollision(x: string, y: string)
    requires '%' !in x && '%' !in y
    ensures ListCommand(Value(x + "%1$s" + y)) == ListCommand(Value(x + CrontabPath + y))
    ensures ListCommand(Value(x + "%1$s" + y)) != Returns(IntendedListCommand(Value(x + "%1$s" + y)))
    ensures ListCommand(Value(x + "%s" + y)).Throws?
  {
    var pre := " -l " + ("-u " + x);
    var command := CrontabPath + (pre + (CrontabPath + y));
    ListCommandOfTruthy(x + "%1$s" + y);
    RegroupList(x, "%1$s", y);
    SprintfArgTwice(pre, y, CrontabPath);
    assert ListCommand(Value(x + "%1$s" + y)) == Returns(command);

    ListCommandWithPath(x, y);
    assert |IntendedListCommand(Value(x + "%1$s" + y))| < |command|;

    ListCommandOfTruthy(x + "%s" + y);
    RegroupList(x, "%s", y);
    FormatLeadingArg(pre + ("%s" + y), CrontabPath);
    FormatSplit(pre, "%s" + y, CrontabPath, true);
    FormatSecondArgThrows(y, CrontabPath);
  }

  /**
   * With `escapeshellarg` wrapping its argument in single quotes, an
   * account holding `%1$s` installs the crontab as if for the account with
   * the crontab path in its place, e.g. "%1$s" for "/usr/bin/crontab".
   */
  lemma InstallCommandFormatCollision(x: string, y: string, tmpFile: string, escapeShellArg: string -> string)
    requires '%' !in x && '%' !in y && '%' !in tmpFile
    requires escapeShellArg(x + "%1$s" + y) == "'" + (x + "%1$s" + y) + "'"
    requires escapeShellArg(x + CrontabPath + y) == "'" + (x + CrontabPath + y) + "'"
    ensures InstallCommand(Value(x + "%1$s" + y), tmpFile, escapeShellArg) ==
              InstallCommand(Value(x + CrontabPath + y), tmpFile, escapeShellArg)
    ensures InstallCommand(Value(x + "%1$s" + y), tmpFile, escapeShellArg) !=
              Returns(IntendedInstallCommand(Value(x + "%1$s" + y), tmpFile, escapeShellArg))
  {
    var pre := " " + ("-u " + ("'" + x));
    var post := (y + "'") + (" " + tmpFile);
    var command := CrontabPath + (pre + (CrontabPath + post));
    InstallCommandOfTruthy(x + "%1$s" + y, tmpFile, escapeShellArg);
    RegroupInstall(x, "%1$s", y, tmpFile);
    SprintfArgTwice(pre, post, CrontabPath);
    assert InstallCommand(Value(x + "%1$s" + y), tmpFile, escapeShellArg) == Returns(command);

    InstallCommandOfTruthy(x + CrontabPath + y, tmpFile, escapeShellArg);
    RegroupInstall(x, CrontabPath, y, tmpFile);
    CrontabPathPlain();
    SprintfLeadingArg(pre + (CrontabPath + post), CrontabPath);
    assert InstallCommand(Value(x + CrontabPath + y), tmpFile, escapeShellArg) == Returns(command);
    assert |IntendedInstallCommand(Value(x + "%1$s" + y), tmpFile, escapeShellArg)| < |command|;
  }

  /** The list command of a truthy account: `sprintf` over the account after `-u`. */
  lemma ListCommandOfTruthy(user: string)
    requires user != "" && user != "0"
    ensures ListCommand(Value(user)) == Sprintf("%s" + (" -l " + ("-u " + user)), CrontabPath)
  {
  }

  /** The install command of a truthy account: `sprintf` over the escaped account after `-u`. */
  lemma InstallCommandOfTruthy(user: string, tmpFile: string, escapeShellArg: string -> string)
    requires user != "" && user != "0"
    ensures InstallCommand(Value(user), tmpFile, escapeShellArg) ==
              Sprintf("%s" + (" " + ("-u " + escapeShellArg(user)) + " " + tmpFile), CrontabPath)
  {
  }

  /** The list command's tail around a middle part `m` of the account. */
  lemma RegroupList(x: string, m: string, y: string)
    ensures " -l " + ("-u " + (x + m + y)) == (" -l " + ("-u " + x)) + (m + y)
  {
  }

  /** The install command's tail around a middle part `m` of the quoted account. */
  lemma RegroupInstall(x: string, m: string, y: string, tmpFile: string)
    ensures " " + ("-u " + ("'" + (x + m + y) + "'")) + " " + tmpFile ==
              (" " + ("-u " + ("'" + x))) + (m + ((y + "'") + (" " + tmpFile)))
  {
  }

  /**
   * `load`: run the list command and hand back its output lines when it
   * exits with status 0, `null` otherwise; when `sprintf` throws, so does
   * `load`, before anything runs.
   */
  function Load(account: Account, exec: Exec): (r: Completion<Nullable<seq<string>>>)
    ensures r.Throws? <==> !Runnable(ListCommand(account))
    ensures r.Returns? ==>
              var result := exec(ListCommand(account).value);
              (r.value.Value? <==> result.status == 0) && (r.value.Value? ==> r.value.value == result.lines)
  {
    var command := ListCommand(account);
    if !Runnable(command) then Throws
    else
      var result := exec(command.value);
      Returns(if result.status == 0 then Value(result.lines) else Null)
  }

  /**
   * An account holding a NUL byte, and no `'`, makes `load`, and with it
   * construction, throw: the byte survives `sprintf` into the command,
   * which PHP 8's `exec` refuses.
   */
  lemma LoadRejectsNul(account: Account, exec: Exec)
    requires account.Value? && '\0' in account.value && '\'' !in account.value
    ensures Load(account, exec).Throws?
  {
    assert account.value != "0";
    var f := "%s" + (" -l " + ("-u " + account.value));
    assert f == "%s -l -u " + account.value;
    assert '\0' in f;
    assert '\'' !in f;
    FormatKeepsChar(f, CrontabPath, false, '\0');
  }

  /**
   * After `%1$'`, any character, a NUL byte included, is a padding
   * character that `sprintf` drops: an account holding `%1$'` and a
   * character before `s` (e.g. "%1$'\0s") lists the crontab of the account
   * with the crontab path in its place (for "%1$'\0s", "/usr/bin/crontab"),
   * and `load` returns when nothing else in the account is a NUL byte.
   */
  lemma ListCommandPaddingDropsChar(x: string, pad: char, y: string, exec: Exec)
    requires '%' !in x && '%' !in y
    ensures ListCommand(Value(x + ("%1$'" + [pad] + "s") + y)) == ListCommand(Value(x + CrontabPath + y))
    ensures '\0' !in x && '\0' !in y ==> Load(Value(x + ("%1$'" + [pad] + "s") + y), exec).Returns?
  {
    ListCommandPadded(x, pad, y);
    ListCommandWithPath(x, y);
    CrontabPathPlain();
  }

  /** The list command of an account holding `%1$'`, a padding character and `s`, with no `%` around it. */
  lemma ListCommandPadded(x: string, pad: char, y: string)
    requires '%' !in x && '%' !in y
    ensures ListCommand(Value(x + ("%1$'" + [pad] + "s") + y)) ==
              Returns(CrontabPath + ((" -l " + ("-u " + x)) + (CrontabPath + y)))
  {
    ListCommandOfTruthy(x + ("%1$'" + [pad] + "s") + y);
    RegroupList(x, "%1$'" + [pad] + "s", y);
    SprintfPaddedArgTwice(" -l " + ("-u " + x), pad, y, CrontabPath);
  }

  /** The list command of an account holding the crontab path, with no `%` around it. */
  lemma ListCommandWithPath(x: string, y: string)
    requires '%' !in x && '%' !in y
    ensures ListCommand(Value(x + CrontabPath + y)) ==
              Returns(CrontabPath + ((" -l " + ("-u " + x)) + (CrontabPath + y)))
  {
    ListCommandOfTruthy(x + CrontabPath + y);
    RegroupList(x, CrontabPath, y);
    CrontabPathPlain();
    SprintfLeadingArg((" -l " + ("-u " + x)) + (CrontabPath + y), CrontabPath);
  }

  /**
   * The text `save` writes to the temporary file: the lines joined by the
   * terminator, with trailing whitespace removed and one terminator added.
   */
  function Serialise(entries: seq<string>): (r: string)
    ensures |r| >= 1 && r[|r| - 1] == Eol
    ensures |r| >= 2 ==> !IsRTrimSpace(r[|r| - 2])
    ensures r[..|r| - 1] <= Implode(entries)
    ensures forall i :: |r| - 1 <= i < |Implode(entries)| ==> IsRTrimSpace(Implode(entries)[i])
  {
    RTrim(Implode(entries)) + [Eol]
  }

  /** When the joined lines end in a visible character, the text is them plus one terminator. */
  lemma SerialiseKeepsText(entries: seq<string>)
    requires var j := Implode(entries); j == [] || !IsRTrimSpace(j[|j| - 1])
    ensures Serialise(entries) == Implode(entries) + [Eol]
  {
    RTrimKeeps(Implode(entries));
  }

  /**
   * Lines without embedded terminators whose last line ends in a visible
   * character come back unchanged when the final terminator is removed and
   * the text is split on the terminator.
   */
  lemma SerialiseRoundTrip(entries: seq<string>)
    requires |entries| >= 1
    requires forall k :: 0 <= k < |entries| ==> Eol !in entries[k]
    requires var last := entries[|entries| - 1]; last != [] && !IsRTrimSpace(last[|last| - 1])
    ensures var r := Serialise(entries); Explode(r[..|r| - 1]) == entries
  {
    var last := entries[|entries| - 1];
    if |entries| > 1 {
      ImplodeSnoc(entries[..|entries| - 1], last);
      assert entries[..|entries| - 1] + [last] == entries;
    }
    SerialiseKeepsText(entries);
    var r := Serialise(entries);
    assert r[..|r| - 1] == Implode(entries);
    ExplodeImplode(entries);
  }

  /** A trailing line that is only whitespace does not change the text written. */
  lemma SerialiseDropsTrailingBlank(entries: seq<string>, blank: string)
    requires AllRTrimSpace(blank)
    ensures Serialise(entries + [blank]) == Serialise(entries)
  {
    if entries == [] {
      assert [] + [blank] == [blank];
      RTrimEmptyIff(blank);
    } else {
      ImplodeSnoc(entries, blank);
      var t := [Eol] + blank;
      forall i | 0 <= i < |t| ensures IsRTrimSpace(t[i]) {
        if i > 0 {
          assert t[i] == blank[i - 1];
        }
      }
      assert Implode(entries) + [Eol] + blank == Implode(entries) + t;
      RTrimIgnoresSpaceSuffix(Implode(entries), t);
    }
  }

  /** The text is a single terminator exactly when every line is only whitespace. */
  lemma SerialiseBlankIff(entries: seq<string>)
    ensures Serialise(entries) == [Eol] <==> forall k :: 0 <= k < |entries| ==> AllRTrimSpace(entries[k])
  {
    ImplodeAllSpace(entries);
    RTrimEmptyIff(Implode(entries));
    var r := RTrim(Implode(entries));
    assert Serialise(entries) == [Eol] <==> r == [] by {
      if Serialise(entries) == [Eol] {
        assert |r + [Eol]| == 1;
      }
    }
  }

  /** One CronBoss instance: the account it was built for, the lines it holds, the last install output. */
  class CronBoss {
    var userAccount: Account
    var cronEntries: Nullable<seq<string>>
    /** Declared and set to null by the constructor; nothing reads it. */
    var cronOutput: Nullable<string>
    /** Written by `save` when the install command ran; read by `response`. */
    var output: Nullable<string>
    /** Whether some `save` call has run the install command. */
    ghost var installRan: bool

    ghost predicate Valid()
      reads this
    {
      !installRan ==> output == Null
    }

    /**
     * `__construct` when it completes: remember the account and load its
     * crontab. `Create` covers the case where loading throws.
     */
    constructor (userAccount: Account, exec: Exec)
      requires Load(userAccount, exec).Returns?
      ensures Valid() && !installRan
      ensures this.userAccount == userAccount
      ensures cronOutput == Null && output == Null
      ensures cronEntries == Load(userAccount, exec).value
    {
      this.userAccount := userAccount;
      cronOutput := Null;
      output := Null;
      installRan := false;
      cronEntries := Load(userAccount, exec).value;
    }

    /** `new CronBoss($userAccount)`: throws exactly when `load` throws. */
    static method Create(userAccount: Account, exec: Exec) returns (r: Completion<CronBoss>)
      ensures r.Throws? <==> Load(userAccount, exec).Throws?
      ensures r.Returns? ==>
                && fresh(r.value) && r.value.Valid() && !r.value.installRan
                && r.value.userAccount == userAccount
                && r.value.cronOutput == Null && r.value.output == Null
                && r.value.cronEntries == Load(userAccount, exec).value
    {
      if Load(userAccount, exec).Throws? {
        return Throws;
      }
      var c := new CronBoss(userAccount, exec);
      return Returns(c);
    }

    /**
     * `crontab($jobs)`: an array replaces the lines and returns the object,
     * `null` returns the current lines, anything else returns the object
     * and changes nothing.
     */
    method Crontab(jobs: CrontabArg) returns (r: CrontabReturn)
      requires Valid()
      modifies this`cronEntries
      ensures Valid()
      ensures jobs.ArrayArg? ==> r == Self && cronEntries == Value(jobs.jobs)
      ensures jobs.NullArg? ==> r == Entries(old(cronEntries)) && cronEntries == old(cronEntries)
      ensures jobs.OtherArg? ==> r == Self && cronEntries == old(cronEntries)
    {
      if jobs.ArrayArg? {
        cronEntries := Value(jobs.jobs);
      } else if jobs.NullArg? {
        return Entries(cronEntries);
      }
      return Self;
    }

    /** `response()`: the output of the last install command, null before one has run. */
    function Response(): (r: Nullable<string>)
      requires Valid()
      reads this
      ensures !installRan ==> r == Null
      ensures r == output
    {
      output
    }

    /**
     * `save($userAccount)`: write the serialised lines to the temporary
     * file and, when the write and the close both succeed, run the install
     * command for the given account; true only when that command exits 0.
     * When `sprintf` throws, `save` throws after closing the file, without
     * running anything or removing the file.
     */
    method Save(account: Account, tmp: TempFile, exec: Exec, escapeShellArg: string -> string)
      returns (updated: Completion<bool>, trace: SaveTrace)
      requires Valid() && (!FopenThrows(tmp.path) && tmp.openOk ==> cronEntries.Value?)
      modifies this`output, this`installRan
      ensures Valid()
      ensures cronEntries == old(cronEntries) && userAccount == old(userAccount)
      ensures FopenThrows(tmp.path) ==>
                updated.Throws? && trace == SaveTrace(Null, false, Null, false) &&
                output == old(output) && installRan == old(installRan)
      ensures var didOpen := !FopenThrows(tmp.path) && tmp.openOk;
              && trace.written == (if didOpen then Value(Serialise(cronEntries.value)) else Null)
              && (trace.closeCalled <==> didOpen && tmp.writeOk)
      ensures var closed := !FopenThrows(tmp.path) && tmp.openOk && tmp.writeOk && tmp.closeOk;
              var command := InstallCommand(account, tmp.path, escapeShellArg);
              && (updated.Throws? <==> FopenThrows(tmp.path) || (closed && !Runnable(command)))
              && trace.installCommand == (if closed && Runnable(command) then Value(command.value) else Null)
              && trace.unlinked == trace.installCommand.Value?
              && (updated.Returns? ==>
                    updated.value == (trace.installCommand.Value? && exec(command.value).status == 0))
              && output == (if trace.installCommand.Value? then Value(Implode(exec(command.value).lines)) else old(output))
              && installRan == (old(installRan) || trace.installCommand.Value?)
    {
      var cronUpdated := false;
      trace := SaveTrace(Null, false, Null, false);
      if FopenThrows(tmp.path) {
        return Throws, trace;
      }
      if tmp.openOk {
        var newCron := Serialise(cronEntries.value);
        trace := trace.(written := Value(newCron), closeCalled := tmp.writeOk);
        cronUpdated := tmp.writeOk && tmp.closeOk;
        if cronUpdated {
          var command := InstallCommand(account, tmp.path, escapeShellArg);
          if !Runnable(command) {
            return Throws, trace;
          }
          var result := exec(command.value);
          trace := trace.(installCommand := Value(command.value), unlinked := true);
          output := Value(Implode(result.lines));
          installRan := true;
          cronUpdated := result.status == 0;
        }
      }
      updated := Returns(cronUpdated);
    }
  }

  /**
   * The usage example in the class's doc comment: construct without an
   * account, read the lines, append '#my new entry', store them and save.
   * A failed load leaves `null`, to which PHP's `$jobs[] = ...` adds the
   * one new line.
   */
  method DocExample(exec: Exec, tmp: TempFile, escapeShellArg: string -> string)
    returns (ok: Completion<bool>, trace: SaveTrace)
    ensures Load(Null, exec).Returns?
    ensures var loaded := Load(Null, exec).value;
            var jobs := (if loaded.Value? then loaded.value else []) + ["#my new entry"];
            trace.written == if !FopenThrows(tmp.path) && tmp.openOk then Value(Serialise(jobs)) else Null
    ensures var closed := !FopenThrows(tmp.path) && tmp.openOk && tmp.writeOk && tmp.closeOk;
            var command := InstallCommand(Null, tmp.path, escapeShellArg);
            && (ok.Throws? <==> FopenThrows(tmp.path) || (closed && !Runnable(command)))
            && (ok.Returns? ==> (ok.value <==> closed && exec(command.value).status == 0))
  {
    var cron := new CronBoss(Null, exec);
    var got := cron.Crontab(NullArg);
    var jobs := (if got.entries.Value? then got.entries.value else []) + ["#my new entry"];
    var self := cron.Crontab(ArrayArg(jobs));
    assert self == Self;
    ok, trace := cron.Save(Null, tmp, exec, escapeShellArg);
  }

  /** Storing lines and reading them back on the same object gives those lines. */
  method ReadAfterWrite(account: Account, exec: Exec, jobs: seq<string>) returns (r: Completion<CrontabReturn>)
    ensures r.Throws? <==> Load(account, exec).Throws?
    ensures r.Returns? ==> r.value == Entries(Value(jobs))
  {
    var created := CronBoss.Create(account, exec);
    if created.Throws? {
      return Throws;
    }
    var cron := created.value;
    var self := cron.Crontab(ArrayArg(jobs));
    var got := cron.Crontab(NullArg);
    r := Returns(got);
  }
}

=== FILE: php.dfy ===
/**
 * The few PHP built-ins that CronBoss.class.php relies on, stated as
 * functions on values: PHP's `null`, the truthiness of an optional string,
 * `rtrim` with its default character list, `implode` on the line
 * terminator and its inverse `explode`, and `sprintf` with one argument.
 */
module Php {

  /** A PHP value that is either `null` or holds a `T`. */
  datatype Nullable<+T> = Null | Value(value: T)

  /** How a PHP call ends: it returns a value or it throws. */
  datatype Completion<+T> = Returns(value: T) | Throws

  /** `PHP_EOL` on the Unix systems where crontab(1) exists. */
  const Eol: char := '\n'

  /**
   * PHP truthiness of a value that is `null` or a string: `null`, `""`
   * and `"0"` are false, every other string is true.
   */
  predicate Truthy(s: Nullable<string>)
    ensures Truthy(s) ==> s.Value? && s.value != "0"
    ensures s.Value? && |s.value| >= 2 ==> Truthy(s)
  {
    s.Value? && s.value != "" && s.value != "0"
  }

  /** The characters `rtrim` strips when given no character list: " \t\n\r\0\x0B". */
  predicate IsRTrimSpace(c: char) {
    c == ' ' || c == '\t' || c == '\n' || c == '\r' || c == '\0' || c == '\U{B}'
  }

  predicate AllRTrimSpace(s: string) {
    forall i :: 0 <= i < |s| ==> IsRTrimSpace(s[i])
  }

  /**
   * `rtrim(s)`: the longest prefix of `s` that does not end in an rtrim
   * character; everything it drops is rtrim whitespace.
   */
  function RTrim(s: string): (r: string)
    ensures r <= s
    ensures forall i :: |r| <= i < |s| ==> IsRTrimSpace(s[i])
    ensures r == [] || !IsRTrimSpace(r[|r| - 1])
    decreases |s|
  {
    if s == [] || !IsRTrimSpace(s[|s| - 1]) then s else RTrim(s[..|s| - 1])
  }

  /** The three properties in RTrim's contract determine its result. */
  lemma RTrimUnique(s: string, r: string)
    requires r <= s
    requires forall i :: |r| <= i < |s| ==> IsRTrimSpace(s[i])
    requires r == [] || !IsRTrimSpace(r[|r| - 1])
    ensures r == RTrim(s)
  {
  }

  /** Appending rtrim whitespace does not change what `rtrim` keeps. */
  lemma RTrimIgnoresSpaceSuffix(s: string, t: string)
    requires AllRTrimSpace(t)
    ensures RTrim(s + t) == RTrim(s)
  {
    var r := RTrim(s);
    forall i | |r| <= i < |s + t|
      ensures IsRTrimSpace((s + t)[i])
    {
      if i >= |s| {
        assert (s + t)[i] == t[i - |s|];
      }
    }
    RTrimUnique(s + t, r);
  }

  /** A string that already ends in a non-whitespace character is left alone. */
  lemma RTrimKeeps(s: string)
    requires s == [] || !IsRTrimSpace(s[|s| - 1])
    ensures RTrim(s) == s
  {
  }

  /** `rtrim(s)` is empty exactly when `s` is all rtrim whitespace. */
  lemma RTrimEmptyIff(s: string)
    ensures RTrim(s) == [] <==> AllRTrimSpace(s)
  {
  }

  /** `implode(PHP_EOL, xs)`: the strings of `xs` with one terminator between neighbours. */
  function Implode(xs: seq<string>): (r: string)
    ensures xs == [] ==> r == ""
    ensures xs != [] ==> xs[0] <= r
    ensures |xs| >= 2 ==> xs[0] + [Eol] <= r
    decreases |xs|
  {
    if |xs| == 0 then ""
    else if |xs| == 1 then xs[0]
    else xs[0] + [Eol] + Implode(xs[1..])
  }

  /**
   * `explode(PHP_EOL, s)`: the pieces of `s` between terminators; the
   * empty string gives one empty piece.
   */
  function Explode(s: string): (r: seq<string>)
    ensures |r| >= 1
    ensures forall k :: 0 <= k < |r| ==> Eol !in r[k]
    decreases |s|
  {
    if s == [] then [""]
    else if s[0] == Eol then [""] + Explode(s[1..])
    else
      var rest := Explode(s[1..]);
      [[s[0]] + rest[0]] + rest[1..]
  }

  /** Adding one more string to `implode` adds one terminator and that string. */
  lemma {:induction false} ImplodeSnoc(xs: seq<string>, y: string)
    requires |xs| >= 1
    ensures Implode(xs + [y]) == Implode(xs) + [Eol] + y
    decreases |xs|
  {
    if |xs| == 1 {
      assert xs + [y] == [xs[0], y];
    } else {
      assert (xs + [y])[1..] == xs[1..] + [y];
      ImplodeSnoc(xs[1..], y);
    }
  }

  /** Exploding a text whose first piece `x` holds no terminator splits `x` off the first piece. */
  lemma {:induction false} ExplodePrefix(x: string, t: string)
    requires Eol !in x
    ensures Explode(x + t) == [x + Explode(t)[0]] + Explode(t)[1..]
    decreases |x|
  {
    if x != [] {
      assert (x + t)[1..] == x[1..] + t;
      assert x[0] in x;
      ExplodePrefix(x[1..], t);
      assert [x[0]] + (x[1..] + Explode(t)[0]) == x + Explode(t)[0];
    } else {
      assert x + t == t;
      assert x + Explode(t)[0] == Explode(t)[0];
      assert Explode(t) == [Explode(t)[0]] + Explode(t)[1..];
    }
  }

  /** `explode` undoes `implode` when no string holds a terminator. */
  lemma {:induction false} ExplodeImplode(xs: seq<string>)
    requires |xs| >= 1
    requires forall k :: 0 <= k < |xs| ==> Eol !in xs[k]
    ensures Explode(Implode(xs)) == xs
    decreases |xs|
  {
    if |xs| == 1 {
      ExplodePrefix(xs[0], "");
      assert xs[0] + "" == xs[0];
    } else {
      var rest := Implode(xs[1..]);
      ExplodeImplode(xs[1..]);
      ExplodePrefix(xs[0], [Eol] + rest);
      assert ([Eol] + rest)[1..] == rest;
      assert xs[0] + [Eol] + rest == xs[0] + ([Eol] + rest);
      assert xs[0] + "" == xs[0];
      assert xs == [xs[0]] + xs[1..];
    }
  }

  /** `implode` undoes `explode` on every text. */
  lemma {:induction false} ImplodeExplode(s: string)
    ensures Implode(Explode(s)) == s
    decreases |s|
  {
    if s == [] {
    } else if s[0] == Eol {
      var rest := Explode(s[1..]);
      ImplodeExplode(s[1..]);
      assert ([""] + rest)[1..] == rest;
      assert s == [Eol] + s[1..];
    } else {
      var rest := Explode(s[1..]);
      ImplodeExplode(s[1..]);
      var r := [[s[0]] + rest[0]] + rest[1..];
      if |rest| == 1 {
        assert Implode(r) == [s[0]] + rest[0];
      } else {
        assert r[1..] == rest[1..];
        assert Implode(rest) == rest[0] + [Eol] + Implode(rest[1..]);
      }
      assert s == [s[0]] + s[1..];
    }
  }

  /** `implode`'s result is all rtrim whitespace exactly when every piece is. */
  lemma {:induction false} ImplodeAllSpace(xs: seq<string>)
    ensures AllRTrimSpace(Implode(xs)) <==> forall k :: 0 <= k < |xs| ==> AllRTrimSpace(xs[k])
    decreases |xs|
  {
    if |xs| >= 2 {
      var rest := Implode(xs[1..]);
      ImplodeAllSpace(xs[1..]);
      var j := xs[0] + [Eol] + rest;
      if AllRTrimSpace(j) {
        forall i | 0 <= i < |xs[0]| ensures IsRTrimSpace(xs[0][i]) {
          assert j[i] == xs[0][i];
        }
        forall i | 0 <= i < |rest| ensures IsRTrimSpace(rest[i]) {
          assert j[|xs[0]| + 1 + i] == rest[i];
        }
        forall k | 0 <= k < |xs| ensures AllRTrimSpace(xs[k]) {
          if k > 0 {
            assert xs[k] == xs[1..][k - 1];
          }
        }
      } else {
        var i :| 0 <= i < |j| && !IsRTrimSpace(j[i]);
        if i < |xs[0]| {
          assert j[i] == xs[0][i];
        } else {
          assert j[i] == rest[i - |xs[0]| - 1];
          assert !AllRTrimSpace(rest);
          var k :| 0 <= k < |xs[1..]| && !AllRTrimSpace(xs[1..][k]);
          assert xs[1..][k] == xs[k + 1];
        }
      }
    }
  }

  predicate IsDigit(c: char) {
    '0' <= c <= '9'
  }

  /** The length of the run of decimal digits that starts `s`. */
  function DigitRun(s: string): (n: nat)
    ensures n <= |s|
    ensures forall i :: 0 <= i < n ==> IsDigit(s[i])
    ensures n < |s| ==> !IsDigit(s[n])
    decreases |s|
  {
    if s != [] && IsDigit(s[0]) then 1 + DigitRun(s[1..]) else 0
  }

  /** A digit string whose value is 1 ("1", "01", "001", ...). */
  predicate DenotesOne(d: string) {
    |d| >= 1 && d[|d| - 1] == '1' && forall i :: 0 <= i < |d| - 1 ==> d[i] == '0'
  }

  function Prepend(s: string, c: Completion<string>): Completion<string> {
    if c.Throws? then Throws else Returns(s + c.value)
  }

  /** The flags `sprintf` accepts before a conversion, apart from `'`. */
  predicate IsFlag(c: char) {
    c == ' ' || c == '0' || c == '-' || c == '+'
  }

  /** A character a directive of the forms modelled here may consist of, apart from `'` and its padding character. */
  predicate InDirective(c: char) {
    c == '%' || c == '$' || c == 'l' || c == 's' || IsDigit(c) || IsFlag(c)
  }

  /**
   * The position after the flags that start at `p`: ` `, `0`, `-`, `+`, and
   * `'` followed by a padding character, which may be any character at all.
   * A `'` with nothing after it throws (PHP 8's "Missing padding character").
   */
  function SkipFlags(f: string, p: nat): (r: Completion<nat>)
    requires p <= |f|
    ensures r.Returns? ==> p <= r.value <= |f|
    ensures r.Returns? && r.value < |f| ==> !IsFlag(f[r.value]) && f[r.value] != '\''
    ensures (forall i :: p <= i < |f| ==> f[i] != '\'') ==>
              r.Returns? && forall i :: p <= i < r.value ==> IsFlag(f[i])
    decreases |f| - p
  {
    if p < |f| && IsFlag(f[p]) then SkipFlags(f, p + 1)
    else if p < |f| && f[p] == '\'' then (if p + 1 < |f| then SkipFlags(f, p + 2) else Throws)
    else Returns(p)
  }

  /** A `%s`-like directive: whether it names argument 1 explicitly, and where it ends. */
  datatype Directive = Directive(positional: bool, next: nat)

  /**
   * The directive that starts with the `%` at `f[0]`: an optional argument
   * number followed by `$`, flags, an optional `l`, and the conversion `s`.
   * An argument number other than 1 (which would be a missing argument, or
   * 0, which PHP 8 rejects), a missing padding character, and anything else
   * after the flags (a width, a precision, another conversion, the end of
   * the format) throw.
   */
  function ParseDirective(f: string): (r: Completion<Directive>)
    requires |f| >= 1 && f[0] == '%'
    ensures r.Returns? ==> 2 <= r.value.next <= |f| && f[r.value.next - 1] == 's'
    ensures r.Returns? && (forall i :: 0 <= i < |f| ==> f[i] != '\'') ==>
              forall i :: 0 <= i < r.value.next ==> InDirective(f[i])
  {
    var n := DigitRun(f[1..]);
    var positional := 1 + n < |f| && f[1 + n] == '$';
    if positional && !DenotesOne(f[1..1 + n]) then Throws
    else
      var flagsAt := if positional then 2 + n else 1;
      match SkipFlags(f, flagsAt)
      case Throws => Throws
      case Returns(q) =>
        var k := if q < |f| && f[q] == 'l' then q + 1 else q;
        if k < |f| && f[k] == 's' then
          Returns(Directive(positional, k + 1))
        else Throws
  }

  /**
   * The formatting loop of `sprintf(format, arg)` with one argument;
   * `argUsed` says whether a sequential directive has already taken `arg`.
   * `%%` is a percent sign; a directive with argument number 1 is `arg`,
   * and so is the first one without an argument number; a second one
   * without an argument number wants a missing argument and throws, as
   * does every directive `ParseDirective` rejects. Flags change nothing:
   * with no width there is nothing to pad or align.
   */
  function Format(f: string, arg: string, argUsed: bool): (r: Completion<string>)
    ensures '%' !in f ==> r == Returns(f)
    decreases |f|
  {
    if f == [] then Returns("")
    else if f[0] != '%' then
      assert forall c :: c in f[1..] ==> c in f;
      assert [f[0]] + f[1..] == f;
      Prepend([f[0]], Format(f[1..], arg, argUsed))
    else if |f| >= 2 && f[1] == '%' then Prepend("%", Format(f[2..], arg, argUsed))
    else
      match ParseDirective(f)
      case Throws => Throws
      case Returns(d) =>
        if d.positional then Prepend(arg, Format(f[d.next..], arg, argUsed))
        else if argUsed then Throws
        else Prepend(arg, Format(f[d.next..], arg, true))
  }

  /** `sprintf(format, arg)`. */
  function Sprintf(format: string, arg: string): (r: Completion<string>)
    ensures '%' !in format ==> r == Returns(format)
  {
    Format(format, arg, false)
  }

  /** `%s` is a sequential directive of two characters. */
  lemma ParsePlain(rest: string)
    ensures ParseDirective("%s" + rest) == Returns(Directive(false, 2))
  {
    var f := "%s" + rest;
    assert f[1..] == "s" + rest;
    assert DigitRun("s" + rest) == 0;
    assert SkipFlags(f, 1) == Returns(1);
  }

  /** `%1$s` is a directive for argument 1 of four characters. */
  lemma ParsePositionalOne(rest: string)
    ensures ParseDirective("%1$s" + rest) == Returns(Directive(true, 4))
  {
    var f := "%1$s" + rest;
    assert f[1..] == "1$s" + rest;
    assert DigitRun("1$s" + rest) == 1 by {
      assert ("1$s" + rest)[1..] == "$s" + rest;
    }
    assert f[1..2] == "1";
    assert SkipFlags(f, 3) == Returns(3);
  }

  /** `%1$'` with any padding character, then `s`, is a directive for argument 1 of six characters. */
  lemma ParsePaddedPositionalOne(pad: char, rest: string)
    ensures ParseDirective("%1$'" + [pad] + "s" + rest) == Returns(Directive(true, 6))
  {
    var f := "%1$'" + [pad] + "s" + rest;
    assert f[1..] == "1$'" + [pad] + "s" + rest;
    assert DigitRun(f[1..]) == 1 by {
      assert f[1..][1] == '$';
    }
    assert f[1..2] == "1";
    assert f[5] == 's';
    assert SkipFlags(f, 5) == Returns(5);
    assert SkipFlags(f, 3) == Returns(5);
  }

  /** A leading `%s` takes the argument; the rest is formatted with the argument used. */
  lemma FormatLeadingArg(t: string, arg: string)
    ensures Sprintf("%s" + t, arg) == Prepend(arg, Format(t, arg, true))
  {
    ParsePlain(t);
    assert ("%s" + t)[2..] == t;
  }

  /** A leading `%s` followed by text without `%` gives the argument followed by that text. */
  lemma SprintfLeadingArg(t: string, arg: string)
    ensures '%' !in t ==> Sprintf("%s" + t, arg) == Returns(arg + t)
  {
    FormatLeadingArg(t, arg);
  }

  /** A format starting with a character other than `%` copies that character. */
  lemma FormatPlainStep(f: string, arg: string, argUsed: bool)
    requires f != [] && f[0] != '%'
    ensures Format(f, arg, argUsed) == Prepend([f[0]], Format(f[1..], arg, argUsed))
  {
  }

  lemma PrependPrepend(s: string, t: string, c: Completion<string>)
    ensures Prepend(s, Prepend(t, c)) == Prepend(s + t, c)
  {
    if c.Returns? {
      assert s + (t + c.value) == (s + t) + c.value;
    }
  }

  /** Text without `%` followed by more format: the text, then the rest formatted. */
  lemma {:induction false} FormatSplit(t: string, rest: string, arg: string, argUsed: bool)
    requires '%' !in t
    ensures Format(t + rest, arg, argUsed) == Prepend(t, Format(rest, arg, argUsed))
    decreases |t|
  {
    var c := Format(rest, arg, argUsed);
    if t == [] {
      assert t + rest == rest;
      assert c.Returns? ==> "" + c.value == c.value;
    } else {
      assert t[0] in t;
      assert forall x :: x in t[1..] ==> x in t;
      var f := t + rest;
      assert f[0] == t[0] && f[1..] == t[1..] + rest;
      FormatPlainStep(f, arg, argUsed);
      FormatSplit(t[1..], rest, arg, argUsed);
      PrependPrepend([t[0]], t[1..], c);
      assert [t[0]] + t[1..] == t;
    }
  }

  /** A positional `%1$s` is the argument, whether or not a sequential directive took it. */
  lemma FormatPositionalOne(rest: string, arg: string, argUsed: bool)
    requires '%' !in rest
    ensures Format("%1$s" + rest, arg, argUsed) == Returns(arg + rest)
  {
    ParsePositionalOne(rest);
    assert ("%1$s" + rest)[4..] == rest;
  }

  /**
   * The `'` flag takes the next character as padding, whatever it is; with
   * no width nothing is padded, so that character disappears.
   */
  lemma FormatPaddedPositionalOne(pad: char, rest: string, arg: string, argUsed: bool)
    requires '%' !in rest
    ensures Format("%1$'" + [pad] + "s" + rest, arg, argUsed) == Returns(arg + rest)
  {
    ParsePaddedPositionalOne(pad, rest);
    assert ("%1$'" + [pad] + "s" + rest)[6..] == rest;
  }

  /**
   * `%s`, then text, then `%1$s`, then text, all without further `%`: the
   * argument appears in both places.
   */
  lemma SprintfArgTwice(pre: string, post: string, arg: string)
    requires '%' !in pre && '%' !in post
    ensures Sprintf("%s" + (pre + ("%1$s" + post)), arg) == Returns(arg + (pre + (arg + post)))
  {
    FormatLeadingArg(pre + ("%1$s" + post), arg);
    FormatSplit(pre, "%1$s" + post, arg, true);
    FormatPositionalOne(post, arg, true);
  }

  /**
   * `%s`, then text, then `%1$'` with any padding character and `s`, then
   * text, all without further `%`: the argument appears in both places and
   * the padding character nowhere.
   */
  lemma SprintfPaddedArgTwice(pre: string, pad: char, post: string, arg: string)
    requires '%' !in pre && '%' !in post
    ensures Sprintf("%s" + (pre + ("%1$'" + [pad] + "s" + post)), arg) == Returns(arg + (pre + (arg + post)))
  {
    FormatLeadingArg(pre + ("%1$'" + [pad] + "s" + post), arg);
    FormatSplit(pre, "%1$'" + [pad] + "s" + post, arg, true);
    FormatPaddedPositionalOne(pad, post, arg, true);
  }

  /** Once the argument is used, a second `%s` throws. */
  lemma FormatSecondArgThrows(rest: string, arg: string)
    ensures Format("%s" + rest, arg, true).Throws?
  {
    ParsePlain(rest);
  }

  /**
   * In a format without `'`, a character that cannot be part of a
   * directive is never consumed: when formatting succeeds it is in the
   * result. (With `'`, the character after it is a padding character and
   * may vanish, as `FormatPaddedPositionalOne` shows.)
   */
  lemma {:induction false} FormatKeepsChar(f: string, arg: string, argUsed: bool, c: char)
    requires c in f && !InDirective(c) && '\'' !in f
    ensures Format(f, arg, argUsed).Returns? ==> c in Format(f, arg, argUsed).value
    decreases |f|
  {
    var r := Format(f, arg, argUsed);
    if r.Returns? {
      assert forall i :: 0 <= i < |f| ==> f[i] != '\'';
      if f[0] != '%' {
        if f[0] != c {
          assert c in f[1..] by { assert f == [f[0]] + f[1..]; }
          assert forall x :: x in f[1..] ==> x in f;
          FormatKeepsChar(f[1..], arg, argUsed, c);
        }
      } else if |f| >= 2 && f[1] == '%' {
        assert c in f[2..] by { assert f == f[..2] + f[2..]; }
        assert forall x :: x in f[2..] ==> x in f;
        FormatKeepsChar(f[2..], arg, argUsed, c);
      } else {
        var d := ParseDirective(f).value;
        assert c in f[d.next..] by { assert f == f[..d.next] + f[d.next..]; }
        assert forall x :: x in f[d.next..] ==> x in f;
        FormatKeepsChar(f[d.next..], arg, argUsed || !d.positional, c);
      }
    }
  }
}
